=== FILE: README.md ===
# A* grid search engine (`aStar`)

This project models the search engine of `astar.hpp` in Dafny. The engine finds a path between two cells of a rectangular grid. Some cells are blocked. The search is A* with eight-directional moves of unit cost and a heuristic chosen by an integer id.

The model has six modules:

- `Point` (point.dfy) models the `point` class. It covers the shift constructor, `operator==`, `operator<`, `setScores`, `find_item` and `matchPointCoords`.
  - Scores are unbounded integers. The source keeps them in `float` fields, which hold them exactly only up to 2^24 (see "## Left out").
- `Heuristic` (heuristic.dfy) models `getDelta` and `distanceOp` for the three heuristic ids and the three "power" ids.
- `Grid` (grid.dfy) models the collision map and `isValid`, `setInaccessible` and `setMapSize`.
  - The map holds the 16-bit `sizeM`/`sizeN`, the extent of the backing matrix, and the set of cells that hold `INACCESSIBLE`.
- `Expansion` (expansion.dfy) models `getAdjacent` and `generateChildren`.
- `Lists` (lists.dfy) models the open and closed lists:
  - extraction of a node of least `f`;
  - the children one iteration pushes;
  - the parent links that path reconstruction follows;
  - the termination measure of the main loop.
- `Search` (search.dfy) models `runAlgorithm`, `returnPath` and `getPath` over an `Engine` value, together with the loop invariant and its lemmas.

Several behaviours of the code are kept as written:

- The upper bound test of `isValid` is inclusive: row `sizeM` and column `sizeN` pass it, although they lie outside the matrix `setMapSize` builds.
- The `MINIMUM` power compares the row difference with `p2.second - p2.second`. It is therefore always 0, and the Octagonal estimate is exactly ten times the Manhattan one.
- `runAlgorithm` clears `open` twice and never clears `closed`. Nodes closed by an earlier call stay in front of the new ones. A destination closed by an earlier call can be reached again only when the origin sits on it, so after a successful search a second search with different cells fails.
- Children are pushed onto `open` even when their cell is already there.
- The destination test compares cells only. When the origin's cell is the destination's, the call succeeds on its first pop. The path is then `[origin]` when the origin's cell is valid and its parent is not (the sentinel, for instance). It is empty when the origin's cell is invalid.

The extraction is nondeterministic. `std::sort` orders by `f` alone and is not stable, so the loop may pop any node of least `f`.

`runAlgorithm` terminates under a lexicographic measure with two parts:

1. the number of cells of `{origin} ∪ [0..sizeM] × [0..sizeN]` not yet closed;
2. the number of `open` entries whose cell is already closed.

Further facts about the code that the model follows:

- Eigen's `resize` leaves the cells uninitialised, so `SetMapSize` takes the blocked cells of the new matrix as a parameter.
- The stored origin is pushed as it is, whatever its scores and parent. Path reconstruction is defined and ends only when the origin's valid parent is already on `closed`, and `RunAlgorithm` states this as a precondition.

## Model

| member | source | states |
|---|---|---|
| Point.DefaultPoint | astar.hpp:56 | `point()` is cell (0,0), all scores 0, and the sentinel parent `(INEXISTENT, INEXISTENT)` |
| Point.MakePoint | astar.hpp:58-61 | `point(a, b)` is cell (a,b), all scores 0, and the sentinel parent |
| Point.Shift | astar.hpp:63-72 | `point(p, dx, dy)` is `p`'s cell shifted by (dx,dy), with `p`'s three scores and `p`'s cell as parent |
| Point.SamePos | astar.hpp:81-83 | `operator==` holds exactly when both components of the cells agree; scores and parents are ignored |
| Point.LessF | astar.hpp:90-124 | both `operator<` overloads, the member at lines 90-92 and the free one at 122-124, compare `f` alone |
| Point.MatchPointCoords | astar.hpp:120 | `matchPointCoords(p, c)` holds exactly when `p` sits at cell `c` |
| Point.Contains | astar.hpp:11 | the `contains` macro over a node list holds exactly when some node of the list sits at the cell (the `std::find` under `operator==` ends before `end()`) |
| Point.SetScores | astar.hpp:112-116 | after `setScores(g, h)` the node carries the given `g` and `h` and `f == g + h`, with its cell and parent unchanged |
| Point.FindItem | astar.hpp:27-32 | `find_item` returns the index of the first node at cell `c`: every earlier node is elsewhere, and the index is `end()` exactly when no node of the list is at `c` |
| Point.FindItemExtends | astar.hpp:27-32 | appending nodes to a list does not move the first occurrence of a cell already in it |
| Heuristic.GetDelta | astar.hpp:150-159 | the result is `-infinity` exactly for an unknown power id and non-negative otherwise; `IDENTITY` is `|Δrow| + |Δcol|`; `SQUARED` is the integer part of the exact root of `Δrow² + Δcol²`, standing in for the truncated `float` root; `MINIMUM` is always 0 |
| Heuristic.FloorSqrt | astar.hpp:154 | the integer part of the exact root of `n`, the largest `r` with `r² <= n`, standing in for the truncated `float` root (see Left out for where the two part) |
| Heuristic.DistanceOp | astar.hpp:161-178 | every estimate is non-negative, and an unknown heuristic id gives 0 |
| Heuristic.ManhattanIsMetric | astar.hpp:151-152 | the Manhattan estimate is `|Δrow| + |Δcol|`, symmetric, and 0 exactly on equal cells |
| Heuristic.OctogonalIsTenManhattan | astar.hpp:170-172 | because the `MINIMUM` term vanishes, the Octagonal estimate equals ten times the Manhattan estimate |
| Heuristic.OctogonalDropsDiagonalShortcut | astar.hpp:170-172 | when both differences are non-zero, the computed Octagonal estimate exceeds `10(Δr+Δc) − 6·min(Δr,Δc)` |
| Heuristic.EuclideanIsRoot | astar.hpp:153-154 | the Euclidean estimate is the root of the sum of the squared absolute differences |
| Heuristic.EuclideanBounds | astar.hpp:153-154 | the Euclidean estimate is symmetric, 0 exactly on equal cells, and lies between the Chebyshev and the Manhattan distances |
| Heuristic.UnknownHeuristicIsZero | astar.hpp:174-176 | a heuristic id other than 1, 2 or 3 estimates every distance as 0 |
| Heuristic.EstimatesOverestimate | astar.hpp:161-178 | for unit-cost diagonal moves every estimate exceeds some true distance: Manhattan 2 and Octagonal 20 for one diagonal move, Euclidean 4 for three |
| Grid.IsValid | astar.hpp:357-371 | a cell is valid exactly when it lies in the inclusive box `[0..sizeM] × [0..sizeN]` and is not blocked |
| Grid.InvalidCells | astar.hpp:357-371 | each rejecting test: the sentinel, a negative component, a row above `sizeM` or a column above `sizeN`, and a blocked cell are all invalid; every other cell is valid |
| Grid.UpperBoundInclusive | astar.hpp:361 | the corner `(sizeM, sizeN)` passes the bound test, although it lies outside a `sizeM × sizeN` matrix |
| Grid.SetInaccessible | astar.hpp:411-414 | afterwards `c` is invalid, every other cell keeps its validity, and the sizes are unchanged |
| Grid.SetMapSize | astar.hpp:335-339 | the stored `sizeM` and `sizeN` are the requested sizes modulo 2^16; the matrix takes the requested extent; validity afterwards uses the stored sizes and the new matrix's blocked cells |
| Grid.SetMapSizeSquare | astar.hpp:330-333 | both stored sizes are `size` modulo 2^16, the matrix is `size × size` with the given blocked cells, and a cell is valid exactly when both its components lie in `[0..size mod 2^16]` and it is not blocked |
| Grid.SizeWraps | astar.hpp:185 | a size of 2^16 is stored as 0 in the 16-bit field while the matrix keeps 2^16 rows |
| Expansion.GetAdjacent | astar.hpp:427-441 | each of the eight directions yields a cell one king move away in that direction, with parent the source cell and scores copied; any other direction yields `point()` |
| Expansion.AdjacentCoversKingSteps | astar.hpp:427-441 | a cell is one king move away exactly when some direction reaches it, and that direction's neighbour is that cell |
| Expansion.AdjacentDistinct | astar.hpp:427-441 | different directions give different cells |
| Expansion.DirListIsEnumOrder | astar.hpp:21-23 | `dirList` lists the eight directions in enumeration order |
| Expansion.Collect | astar.hpp:447-452 | every child produced from a suffix of `dirList` is valid and is the neighbour in a direction of that suffix |
| Expansion.CollectComplete | astar.hpp:447-452 | no valid neighbour in the directions of a suffix of `dirList` is skipped |
| Expansion.CollectOrdered | astar.hpp:447-452 | the children come in `dirList` order |
| Expansion.GenerateChildren | astar.hpp:443-455 | at most eight children, each valid, one king move from `p`, with parent `p`'s cell and `p`'s scores; their cells are exactly the valid king-move neighbours of `p`; they come in `dirList` order |
| Lists.MinExists | astar.hpp:476-482 | a non-empty open list has a node of least `f` that the sort can put in front |
| Lists.MinFIsUnbeaten | astar.hpp:89-92 | a node has least `f` exactly when no node of `open` precedes it under `operator<`, so the nodes the model may pop are those `std::sort` may put in front |
| Lists.Remove | astar.hpp:484 | erasing one entry leaves one entry fewer and the same multiset minus that entry |
| Lists.Pop | astar.hpp:476-487 | the popped node moves from `open` to the end of `closed`; a node of least `f` is no greater in `f` than anything left on `open` |
| Lists.PushOneScored | astar.hpp:504-518 | one turn of the inner loop adds at most one node, and what it adds has `g = parent.g + COST`, `h` the estimate to the destination, `f = g + h`, parent the popped cell, and a cell not on `closed` |
| Lists.PushOnePositions | astar.hpp:504-518 | one turn adds the child's cell exactly when it is not on `closed` |
| Lists.PushOneOrdered | astar.hpp:499-518 | a turn that pushes its child in front of the later pushes keeps the children's order |
| Lists.PushChildren | astar.hpp:499-519 | the pushed children are those not on `closed`, kept in the order they come in, no more entries than children; each has `g = parent.g + COST`, `h` the estimate to the destination, `f = g + h`, and parent the popped cell |
| Lists.Successors | astar.hpp:497-519 | one iteration pushes one entry per valid king-move neighbour of the popped cell that is not on `closed`, in `dirList` order (so at most eight, no cell twice), each scored as above |
| Lists.AppendLinked | astar.hpp:487 | pushing onto `closed` a node whose parent is already on it keeps every parent lookup pointing to an earlier entry |
| Lists.AppendKeepsChild | astar.hpp:487 | pushing onto `closed` keeps the parent lookups of the nodes already there |
| Lists.AncestorPath | astar.hpp:384-396 | on a closed list where each node is the origin or a child of an earlier node, following parents from any node reaches the origin, by king moves over valid cells |
| Lists.WalkStaysClosed | astar.hpp:499-518 | a walk by king moves over valid cells that starts on a closed list closed under valid moves never leaves that list |
| Lists.CountRemove | astar.hpp:484 | erasing an entry on a closed cell lowers the count of such entries by one |
| Lists.CloseNewCell | astar.hpp:487 | closing a cell of the universe not closed before lowers the number of unclosed cells |
| Lists.MeasureDecreases | astar.hpp:471-519 | one pop followed by its pushes lowers the lexicographic measure (unclosed cells, then open entries on closed cells) |
| Search.GetPath | astar.hpp:529-531 | `getPath()` returns the stored path |
| Search.ReturnPath | astar.hpp:373-400 | the path is empty when the start cell is invalid; otherwise it is the start's ancestors through `closed`, root first, ending with the start cell; the parent walk terminates |
| Search.InitialInv | astar.hpp:460-467 | the state after entry (`open == [origin]`, `closed` as left by earlier calls) satisfies the loop invariant |
| Search.PopKeepsLinks | astar.hpp:481-487 | moving a node from `open` to `closed` keeps `closed` linked, and the popped node is the origin or a child of an earlier closed node |
| Search.OpenStep | astar.hpp:497-519 | after an iteration every entry of `open` is still the origin or a child of a closed node, inside the measure's universe |
| Search.PopKeepsCell | astar.hpp:481-487 | a cell that was closed or on `open` before a pop is still closed or on `open` after it |
| Search.CoverStep | astar.hpp:497-519 | after an iteration, every valid neighbour of every node this call closed is closed or on `open` |
| Search.PrefixPositions | astar.hpp:487 | every cell on `closed` when the call started is still on `closed` |
| Search.PrefixKeepsParent | astar.hpp:387 | a parent found on the starting `closed` list is still found after the call's pops |
| Search.FreshStep | astar.hpp:504-518 | after an iteration, every node on `open` other than the origin sits on a cell that was not on `closed` when the call started |
| Search.IterationPreserves | astar.hpp:471-519 | an iteration that does not pop the destination keeps the loop invariant |
| Search.IterationDecreases | astar.hpp:471-519 | an iteration that does not pop the destination lowers the termination measure |
| Search.RunIsRooted | astar.hpp:487-518 | from an empty initial closed list, every closed node is the origin or a child of an earlier one |
| Search.FoundPath | astar.hpp:487-494 | from an empty initial closed list and a valid origin, the reconstructed path walks from the origin to the popped cell by king moves over valid cells |
| Search.ExhaustedMeansUnreachable | astar.hpp:471-526 | when `open` runs empty from an empty initial closed list, no walk over valid cells leads from the origin to the destination |
| Search.FoundOutcome | astar.hpp:487-494 | popping the destination's cell leaves a linked closed list whose run began with the origin and reached no destination cell before the last pop; when origin and destination share a cell, that pop is the first; otherwise the destination's cell was not closed before the call |
| Search.ExhaustedOutcome | astar.hpp:524-526 | an exhausted run closed the origin first, never closed the destination's cell, and leaves `closed` linked |
| Search.Explore | astar.hpp:460-524 | the loop keeps its invariant and stops either with a node of least `f` on the destination's cell at the front of `open` or with `open` empty |
| Search.FinishFound | astar.hpp:487-494 | popping the destination's node closes it last, after the origin and no earlier destination cell, keeps `closed` linked, makes it `pathStart`, and gives a path that is empty only for an invalid destination and otherwise walks from the origin when the run began with an empty `closed` |
| Search.FinishExhausted | astar.hpp:524-526 | an exhausted run leaves `open` and the path empty and `pathStart` the sentinel, never closed the destination's cell, and from an empty `closed` means the destination is unreachable |
| Search.RunAlgorithm | astar.hpp:457-527 | terminates with `EXIT_SUCCESS` exactly when it pops a node on the destination's cell (the first such pop ends the call); the pops follow the old `closed` entries, the first being the origin; on failure `open` and `path` are empty; on success the path is empty only for an invalid destination, and from an empty closed list and a valid origin it walks from origin to destination over valid cells (`[origin]` when they coincide); failure from an empty closed list means the destination is unreachable; `closed` stays linked with the origin's parent findable; a success whose destination cell was already closed before the call has the origin on that cell |
| Search.OriginParentCycle | astar.hpp:384-396 | an origin at (5,5) whose parent is the valid cell (4,4), searched towards (0,0) on a 10 × 10 grid with Manhattan estimates, has a parent missing from an empty `closed` list, and its first expansion pushes a child at (4,4) with the strictly least `f`; once both are closed, the lookup of the origin's parent finds the child and the child's finds the origin, so the parent walk cycles |
| Search.CycleStep | astar.hpp:499-518 | the children an origin at (5,5) with parent (4,4) pushes include one at (4,4) of strictly least `f` whose parent is the origin, and the two nodes on `closed` name each other as parents |
| Search.CycleMin | astar.hpp:508-518 | among the children of (5,5) scored towards (0,0) by Manhattan distance, the one at (4,4) has strictly the least `f` |
| Search.CycleLinks | astar.hpp:27-32 | on a closed list holding two nodes that name each other's cells as parents, each parent lookup finds the other node, so the list is not linked |
| Search.SearchTwice | astar.hpp:457-495 | because `closed` is kept, after a successful search a second search on the same engine fails unless origin and destination share a cell, in which case both succeed |

## Left out

- Console output: `print`, `printCoords`, `printMap`, the `operator<<` overloads and the `debug` tracing. This includes astar.hpp:478-479 and 522-523, which print the whole `open` list on every iteration through plain `std::cout`, whatever `DEBUG_FLAG` says.
- The constructor overloads. `aStar()` and `aStar(int)` set origin and destination to cell (0,0) with zero scores; the others copy them from the arguments; all of them resize the matrix. None of them sets the 16-bit `sizeM`/`sizeN`, so `isValid` reads uninitialised sizes until `setMapSize` runs, and the `main` in astar.cpp searches in exactly that state. The model therefore takes the grid as a free value of the engine instead of one built by a constructor.
- `getMapSize`. It returns the sizes swapped in a leaked heap object.
- `Heuristic::setHeuristic` and `Heuristic::getHeuristic`, which store and read the id, reached through `aStar::getHeuristic()`. `Engine.heuristic` is that id. `aStar::setHeuristic()` has an empty body and does nothing.
- `setOrigin` and `setDestination`. They are declared but not defined in the source. `Engine.origin` and `Engine.destination` are fields of the engine value.
- `operator!=` and the `operator=` copy. The latter is plain value copying.
- Floating-point scores. `setScores` stores its `int` arguments into `float` fields and `p.g + COST` is a `float` addition. A `float` holds integers exactly only up to 2^24; beyond that `g` stops growing and `f` rounds, which can create new ties for least `f`. The model keeps exact unbounded integers, so it describes the source only while scores stay below 2^24. The origin and destination keep whatever scores the caller gives them.
- Heuristic.GetDelta: the `SQUARED` case is the integer part of the exact root, standing in for the `double` root rounded to `float` and truncated by `setScores`. The two agree only for squared distances below 16826402. At Δ = (821, 4019) the squared distance is 16826402, its root 4101.99975… rounds to `4102.0f`, and `setScores` keeps 4102 where the model gives 4101. Claims built on the Euclidean estimate (`EuclideanBounds`, `EstimatesOverestimate`) hold of the model; of the source they hold only in that range.
- 32-bit `int` overflow of coordinates and of the `int` arguments of `setScores`. The origin's cell is arbitrary, and the shift constructor `point(p, dx, dy)` adds to it without a check, so a cell near the `int` limits overflows. Cells pushed as children pass `isValid` and lie within the 16-bit sizes, but the model does not bound the origin.
- The Eigen matrix storage. It is replaced by its extent and the set of blocked cells.
  - `isValid` reads row `sizeM` and column `sizeN` outside the matrix, which is undefined behaviour. Eigen's `eigen_assert` aborts on such a read unless `NDEBUG` is defined. Without the assertion the column-major storage aliases it: row `rows` at column `c` reads cell (0, `c`+1), and column `cols` reads past the end. The model answers these reads from the blocked set as well, which holds whatever cells the caller supplies.
- Grid.SetMapSize: requires non-negative sizes, which Eigen's `resize` demands of its callers. Grid.SetMapSizeSquare requires `0 <= size` for the same reason.
- Grid.SetInaccessible: requires the cell to lie inside the matrix, because a write outside it is undefined. Its frame (every other cell keeps its validity) holds of the source only for cells inside the matrix. Cells outside it are read with undefined behaviour: `eigen_assert` aborts unless `NDEBUG` is defined, and otherwise the column-major storage makes (`sizeM`, `c`) read cell (0, `c`+1). So in a 10 × 10 matrix with `sizeM` = 10, `setInaccessible((0, c+1))` also invalidates (10, `c`).
- Search.ReturnPath: reads each parent from `closed` itself. In the source, `find_item` takes the vector by value and returns an iterator into that copy, which is destroyed before `returnPath` reads `p->pos` and `*p`. Every parent lookup therefore reads freed memory. The model reads what the code evidently means: the first node of `closed` at the parent's cell.
- Search.RunAlgorithm: requires that every valid parent reachable from `closed` and from the origin is on `closed`. This excludes three kinds of run:
  - runs where `returnPath` dereferences the `end()` of a failed `find_item`, which is undefined;
  - runs where the parent walk of `returnPath` never ends. `Search.OriginParentCycle` builds one: an origin at (5,5) whose parent is the valid cell (4,4), searched towards (0,0) on a 10 × 10 grid, closes a child at (4,4) with parent (5,5) second, and the two closed entries then name each other as parents;
  - failing runs from such a start, which the code finishes normally with `EXIT_FAILURE` because it reconstructs no path.
- Search.RunAlgorithm: the order of the entries left on `open` after a pop is kept, not re-sorted. The next pop again takes any node of least `f`, so this order has no effect on what can happen.
- The `main` entry point in astar.cpp.

=== FILE: expansion.dfy ===
/** Neighbour expansion: `getAdjacent` and `generateChildren`.

    The eight directions are tried in `dirList` order, which is the order of
    the `Direction` enumeration, so a direction is also its index in that list.
 */
module Expansion {
  import opened Point
  import opened Grid

  /** The `Direction` enumeration. Rows grow to the south, columns to the east. */
  const North: int := 0
  const South: int := 1
  const East: int := 2
  const West: int := 3
  const NorthEast: int := 4
  const SouthEast: int := 5
  const NorthWest: int := 6
  const SouthWest: int := 7

  /** `dirList`: the order in which `generateChildren` tries the directions. */
  const DirList: seq<int> := [North, South, East, West, NorthEast, SouthEast, NorthWest, SouthWest]

  /** The direction of the move from `a` to `b`, or -1 when `b` is not one
      king move away from `a`. */
  function DirectionOf(a: Coord, b: Coord): int
  {
    var dr := b.row - a.row;
    var dc := b.col - a.col;
    if dr == -1 && dc == 0 then North
    else if dr == 1 && dc == 0 then South
    else if dr == 0 && dc == 1 then East
    else if dr == 0 && dc == -1 then West
    else if dr == -1 && dc == 1 then NorthEast
    else if dr == 1 && dc == 1 then SouthEast
    else if dr == -1 && dc == -1 then NorthWest
    else if dr == 1 && dc == -1 then SouthWest
    else -1
  }

  /** `getAdjacent(p, dir)`: the node one move from `p` in direction `dir`,
      inheriting `p`'s scores and having `p`'s cell as parent; an unknown
      direction yields `point()`. */
  function GetAdjacent(p: Node, dir: int): (r: Node)
    ensures 0 <= dir < 8 ==>
      && KingStep(p.pos, r.pos)
      && DirectionOf(p.pos, r.pos) == dir
      && r.parent == p.pos
      && r.f == p.f && r.g == p.g && r.h == p.h
    ensures !(0 <= dir < 8) ==> r == DefaultPoint()
  {
    if dir == North then Shift(p, -Cost, 0)
    else if dir == NorthWest then Shift(p, -Cost, -Cost)
    else if dir == NorthEast then Shift(p, -Cost, Cost)
    else if dir == South then Shift(p, Cost, 0)
    else if dir == SouthWest then Shift(p, Cost, -Cost)
    else if dir == SouthEast then Shift(p, Cost, Cost)
    else if dir == West then Shift(p, 0, -Cost)
    else if dir == East then Shift(p, 0, Cost)
    else DefaultPoint()
  }

  /** The eight directions reach exactly the king moves from `p`, each
      through its own direction. */
  lemma AdjacentCoversKingSteps(p: Node, q: Coord)
    ensures KingStep(p.pos, q) <==> 0 <= DirectionOf(p.pos, q) < 8
    ensures KingStep(p.pos, q) ==> GetAdjacent(p, DirectionOf(p.pos, q)).pos == q
  {
  }

  /** Different directions give different cells. */
  lemma AdjacentDistinct(p: Node, d1: int, d2: int)
    requires 0 <= d1 < 8 && 0 <= d2 < 8 && d1 != d2
    ensures GetAdjacent(p, d1).pos != GetAdjacent(p, d2).pos
  {
  }

  lemma DirListIsEnumOrder()
    ensures |DirList| == 8
    ensures forall i :: 0 <= i < |DirList| ==> DirList[i] == i
  {
  }

  /** The children produced by the directions `DirList[i..]`, in that order:
      each is the valid neighbour in its direction. */
  function Collect(g: Grid, p: Node, i: nat): (r: seq<Node>)
    requires i <= |DirList|
    ensures |r| <= |DirList| - i
    ensures forall k :: 0 <= k < |r| ==>
      && IsValid(g, r[k].pos)
      && i <= DirectionOf(p.pos, r[k].pos) < 8
      && r[k] == GetAdjacent(p, DirectionOf(p.pos, r[k].pos))
    decreases |DirList| - i
  {
    DirListIsEnumOrder();
    if i == |DirList| then []
    else
      var a := GetAdjacent(p, DirList[i]);
      var rest := Collect(g, p, i + 1);
      if IsValid(g, a.pos) then [a] + rest else rest
  }

  /** No valid neighbour in the directions `DirList[i..]` is missed. */
  lemma {:induction false} CollectComplete(g: Grid, p: Node, i: nat, d: int)
    requires i <= d < |DirList|
    requires IsValid(g, GetAdjacent(p, d).pos)
    ensures GetAdjacent(p, d) in Collect(g, p, i)
    decreases |DirList| - i
  {
    DirListIsEnumOrder();
    if d != i {
      CollectComplete(g, p, i + 1, d);
    }
  }

  /** The cells of `s` are in strictly increasing direction from `p`. */
  predicate InDirOrder(p: Node, s: seq<Node>)
  {
    forall k1, k2 :: 0 <= k1 < k2 < |s| ==>
      DirectionOf(p.pos, s[k1].pos) < DirectionOf(p.pos, s[k2].pos)
  }

  lemma OrderedCons(p: Node, a: Node, rest: seq<Node>)
    requires InDirOrder(p, rest)
    requires forall k :: 0 <= k < |rest| ==> DirectionOf(p.pos, a.pos) < DirectionOf(p.pos, rest[k].pos)
    ensures InDirOrder(p, [a] + rest)
  {
    var c := [a] + rest;
    forall k1, k2 | 0 <= k1 < k2 < |c|
      ensures DirectionOf(p.pos, c[k1].pos) < DirectionOf(p.pos, c[k2].pos)
    {
      assert c[k2] == rest[k2 - 1];
      if k1 > 0 {
        assert c[k1] == rest[k1 - 1];
      }
    }
  }

  /** Dropping the first cell keeps the order. */
  lemma OrderedTail(p: Node, s: seq<Node>)
    requires |s| > 0
    ensures InDirOrder(p, s) ==> InDirOrder(p, s[1..])
  {
    if InDirOrder(p, s) {
      forall k1, k2 | 0 <= k1 < k2 < |s[1..]|
        ensures DirectionOf(p.pos, s[1..][k1].pos) < DirectionOf(p.pos, s[1..][k2].pos)
      {
        assert s[1..][k1] == s[k1 + 1] && s[1..][k2] == s[k2 + 1];
      }
    }
  }

  /** A node on the cell of `s[0]`, put in front of nodes whose cells all
      come from `s[1..]` and keep its order, keeps the order of `s`. */
  lemma OrderedPush(p: Node, a: Node, s: seq<Node>, rest: seq<Node>)
    requires |s| > 0 && a.pos == s[0].pos
    requires InDirOrder(p, s[1..]) ==> InDirOrder(p, rest)
    requires forall q :: q in Positions(rest) ==> q in Positions(s[1..])
    ensures InDirOrder(p, s) ==> InDirOrder(p, [a] + rest)
  {
    if InDirOrder(p, s) {
      OrderedTail(p, s);
      forall k | 0 <= k < |rest|
        ensures DirectionOf(p.pos, a.pos) < DirectionOf(p.pos, rest[k].pos)
      {
        assert rest[k] in rest;
        assert rest[k].pos in Positions(rest);
        var n :| n in s[1..] && n.pos == rest[k].pos;
        var j :| 0 <= j < |s[1..]| && s[1..][j] == n;
        assert s[j + 1] == n;
      }
      OrderedCons(p, a, rest);
    }
  }

  /** The children follow the order of `DirList`. */
  lemma {:induction false} CollectOrdered(g: Grid, p: Node, i: nat)
    requires i <= |DirList|
    ensures InDirOrder(p, Collect(g, p, i))
    decreases |DirList| - i
  {
    DirListIsEnumOrder();
    if i < |DirList| {
      var rest := Collect(g, p, i + 1);
      CollectOrdered(g, p, i + 1);
      var a := GetAdjacent(p, DirList[i]);
      if IsValid(g, a.pos) {
        assert Collect(g, p, i) == [a] + rest;
        assert DirectionOf(p.pos, a.pos) == i by {
          assert DirList[i] == i;
        }
        OrderedCons(p, a, rest);
      } else {
        assert Collect(g, p, i) == rest;
      }
    }
  }

  /** `generateChildren(p)`: the neighbours of `p` that pass `isValid`,
      in `dirList` order. */
  function GenerateChildren(g: Grid, p: Node): (r: seq<Node>)
    ensures |r| <= 8
    ensures forall k :: 0 <= k < |r| ==>
      && IsValid(g, r[k].pos)
      && KingStep(p.pos, r[k].pos)
      && r[k].parent == p.pos
      && r[k].f == p.f && r[k].g == p.g && r[k].h == p.h
    ensures forall q :: q in Positions(r) <==> KingStep(p.pos, q) && IsValid(g, q)
    ensures InDirOrder(p, r)
  {
    var r := Collect(g, p, 0);
    forall q | KingStep(p.pos, q) && IsValid(g, q)
      ensures q in Positions(r)
    {
      AdjacentCoversKingSteps(p, q);
      CollectComplete(g, p, 0, DirectionOf(p.pos, q));
    }
    CollectOrdered(g, p, 0);
    r
  }
}

=== FILE: grid.dfy ===
/** The collision map of `aStar`: the stored sizes `sizeM`/`sizeN`, the
    extent of the backing matrix, and the cells that hold `INACCESSIBLE`.

    The backing matrix is replaced by its extent plus the set of blocked
    cells. The matrix is resized without being initialised, so the blocked
    set after a resize is whatever the caller supplies.
 */
module Grid {
  import opened Point

  /** Range of the `uint16_t` fields `sizeM`/`sizeN`. */
  const U16Modulus: int := 0x1_0000

  type U16 = x: int | 0 <= x < 0x1_0000

  /** `blocked` holds the matrix cells that carry `INACCESSIBLE`. It also
      answers the reads of `isValid` at row `sizeM` or column `sizeN`, which
      fall outside the matrix and are undefined in the source. */
  datatype Grid = Grid(sizeM: U16, sizeN: U16, rows: nat, cols: nat, blocked: set<Coord>)

  /** The bound test of `isValid`: both upper bounds are inclusive. */
  predicate InBox(g: Grid, c: Coord)
  {
    0 <= c.row <= g.sizeM && 0 <= c.col <= g.sizeN
  }

  /** Cells that index the backing matrix without going out of range. */
  predicate InMatrix(g: Grid, c: Coord)
  {
    0 <= c.row < g.rows && 0 <= c.col < g.cols
  }

  /** `isValid(c)`, test by test as the source performs them. The sentinel
      test is subsumed by the sign test. */
  function IsValid(g: Grid, c: Coord): (r: bool)
    ensures r <==> InBox(g, c) && c !in g.blocked
  {
    if c == Sentinel then false
    else if c.row > g.sizeM || c.col > g.sizeN then false
    else if c.row < 0 || c.col < 0 then false
    else if c in g.blocked then false
    else true
  }

  /** `setInaccessible(c)`: writes `INACCESSIBLE` into the matrix cell `c`,
      which must lie inside the matrix. */
  function SetInaccessible(g: Grid, c: Coord): (r: Grid)
    requires InMatrix(g, c)
    ensures !IsValid(r, c)
    ensures forall q :: q != c ==> (IsValid(r, q) <==> IsValid(g, q))
    ensures r.sizeM == g.sizeM && r.sizeN == g.sizeN && r.rows == g.rows && r.cols == g.cols
  {
    g.(blocked := g.blocked + {c})
  }

  /** `setMapSize(m, n)`: stores the sizes into the 16-bit fields (wrapping
      modulo 2^16) and resizes the matrix to `m × n`; `cells` are the blocked
      cells of the fresh, uninitialised matrix. */
  function SetMapSize(g: Grid, m: int, n: int, cells: set<Coord>): (r: Grid)
    requires 0 <= m && 0 <= n
    ensures r.sizeM == m % U16Modulus && r.sizeN == n % U16Modulus
    ensures r.rows == m && r.cols == n && r.blocked == cells
    ensures forall q :: IsValid(r, q) <==>
      0 <= q.row <= m % U16Modulus && 0 <= q.col <= n % U16Modulus && q !in cells
  {
    Grid(m % U16Modulus, n % U16Modulus, m, n, cells)
  }

  /** `setMapSize(size)`: a square map. */
  function SetMapSizeSquare(g: Grid, size: int, cells: set<Coord>): (r: Grid)
    requires 0 <= size
    ensures r.sizeM == r.sizeN == size % U16Modulus
    ensures r.rows == r.cols == size && r.blocked == cells
    ensures forall q :: IsValid(r, q) <==>
      0 <= q.row <= size % U16Modulus && 0 <= q.col <= size % U16Modulus && q !in cells
  {
    SetMapSize(g, size, size, cells)
  }

  /** Every way a cell can fail the validity test. */
  lemma InvalidCells(g: Grid, c: Coord)
    ensures c == Sentinel ==> !IsValid(g, c)
    ensures c.row < 0 || c.col < 0 ==> !IsValid(g, c)
    ensures c.row > g.sizeM || c.col > g.sizeN ==> !IsValid(g, c)
    ensures c in g.blocked ==> !IsValid(g, c)
    ensures InBox(g, c) && c !in g.blocked ==> IsValid(g, c)
  {
  }

  /** The upper bounds are inclusive: the corner `(sizeM, sizeN)` is valid
      when not blocked, although it lies outside a `sizeM × sizeN` matrix. */
  lemma UpperBoundInclusive(g: Grid)
    requires Coord(g.sizeM, g.sizeN) !in g.blocked
    ensures IsValid(g, Coord(g.sizeM, g.sizeN))
    ensures g.rows == g.sizeM ==> !InMatrix(g, Coord(g.sizeM, g.sizeN))
  {
  }

  /** A size of 2^16 or more wraps in the 16-bit fields while the matrix
      keeps the full extent. */
  lemma SizeWraps(g: Grid, cells: set<Coord>)
    ensures SetMapSize(g, U16Modulus, 5, cells).sizeM == 0
    ensures SetMapSize(g, U16Modulus, 5, cells).rows == U16Modulus
    ensures !IsValid(SetMapSize(g, U16Modulus, 5, cells), Coord(1, 0))
  {
  }
}

=== FILE: heuristic.dfy ===
/** The distance estimates of the `Heuristic` class.

    `getDelta` computes one of three raw distances selected by an integer
    "power" id and `distanceOp` combines them according to the heuristic id.
    The engine passes the estimate to the integer `setScores`, so the value
    modelled here is the integer that reaches the node: exact for Manhattan
    and Octagonal. For Euclidean it is the integer part of the exact root,
    standing in for the truncated `float` root; the two differ once the
    `float` rounds a root just below an integer up to it (README.md,
    "## Left out").
 */
module Heuristic {
  import opened Point

  /** Heuristic ids (`MANHATTAN_DISTANCE`, `EUCLIDEAN_DISTANCE`, `OCTOGONAL_DISTANCE`). */
  const ManhattanDistance: int := 1
  const EuclideanDistance: int := 2
  const OctogonalDistance: int := 3

  /** Power ids of `getDelta` (`IDENTITY`, `SQUARED`, `MINIMUM`). */
  const Identity: int := 1
  const Squared: int := 2
  const Minimum: int := 3

  /** Result of `getDelta`: a distance, or the `-infinity` returned for an
      unknown power id. */
  datatype Delta = Finite(value: int) | MinusInfinity

  function Abs(x: int): nat
  {
    if x < 0 then -x else x
  }

  function Min(a: int, b: int): int
  {
    if a <= b then a else b
  }

  function Max(a: int, b: int): int
  {
    if a <= b then b else a
  }

  /** The integer part of the square root of `n`. */
  function FloorSqrt(n: nat): (r: nat)
    ensures r * r <= n < (r + 1) * (r + 1)
  {
    if n == 0 then 0
    else
      var s := FloorSqrt(n - 1);
      if (s + 1) * (s + 1) <= n then
        assert (s + 2) * (s + 2) == (s + 1) * (s + 1) + 2 * s + 3;
        s + 1
      else s
  }

  /** `getDelta(p1, p2, power)`. The `SQUARED` case yields the integer part
      of the exact `sqrt((Δrow)² + (Δcol)²)`, standing in for the `float`
      root truncated by `setScores`; the `MINIMUM` case compares the row
      difference with `p2.col - p2.col`, as the source does. */
  function GetDelta(p1: Coord, p2: Coord, power: int): (r: Delta)
    ensures r.MinusInfinity? <==> power !in {Identity, Squared, Minimum}
    ensures r.Finite? ==> r.value >= 0
    ensures power == Identity ==> r.value == Abs(p1.row - p2.row) + Abs(p1.col - p2.col)
    ensures power == Squared ==>
      var d := (p1.row - p2.row) * (p1.row - p2.row) + (p1.col - p2.col) * (p1.col - p2.col);
      r.value * r.value <= d < (r.value + 1) * (r.value + 1)
    ensures power == Minimum ==> r == Finite(0)
  {
    if power == Identity then
      Finite(Abs(p1.row - p2.row) + Abs(p1.col - p2.col))
    else if power == Squared then
      var dr := p1.row - p2.row;
      var dc := p1.col - p2.col;
      Finite(FloorSqrt(dr * dr + dc * dc))
    else if power == Minimum then
      Finite(Min(Abs(p1.row - p2.row), Abs(p2.col - p2.col)))
    else
      MinusInfinity
  }

  /** `distanceOp(p1, p2)` for heuristic id `heuristic`, as the integer it
      becomes in `setScores`. */
  function DistanceOp(heuristic: int, p1: Node, p2: Node): (r: int)
    ensures r >= 0
    ensures heuristic !in {ManhattanDistance, EuclideanDistance, OctogonalDistance} ==> r == 0
  {
    if heuristic == ManhattanDistance then
      GetDelta(p1.pos, p2.pos, Identity).value
    else if heuristic == EuclideanDistance then
      GetDelta(p1.pos, p2.pos, Squared).value
    else if heuristic == OctogonalDistance then
      10 * GetDelta(p1.pos, p2.pos, Identity).value + (-6) * GetDelta(p1.pos, p2.pos, Minimum).value
    else
      0
  }

  /** The estimate depends on the cells only. */
  lemma DistanceOnCells(heuristic: int, p1: Node, q1: Node, p2: Node)
    requires p1.pos == q1.pos
    ensures DistanceOp(heuristic, p1, p2) == DistanceOp(heuristic, q1, p2)
  {
  }

  /** Number of moves between two cells of an unbounded, obstacle-free
      eight-connected grid. */
  function Chebyshev(a: Coord, b: Coord): nat
  {
    Max(Abs(a.row - b.row), Abs(a.col - b.col))
  }

  /** Manhattan is a metric: symmetric, zero exactly on equal cells. */
  lemma ManhattanIsMetric(p1: Node, p2: Node)
    ensures DistanceOp(ManhattanDistance, p1, p2) == DistanceOp(ManhattanDistance, p2, p1)
    ensures DistanceOp(ManhattanDistance, p1, p2) == 0 <==> p1.pos == p2.pos
    ensures DistanceOp(ManhattanDistance, p1, p2) == Abs(p1.pos.row - p2.pos.row) + Abs(p1.pos.col - p2.pos.col)
  {
  }

  /** Because the `MINIMUM` term is always zero, the Octagonal estimate is
      exactly ten times the Manhattan one instead of `10·(Δr+Δc) − 6·min(Δr,Δc)`. */
  lemma OctogonalIsTenManhattan(p1: Node, p2: Node)
    ensures DistanceOp(OctogonalDistance, p1, p2) == 10 * DistanceOp(ManhattanDistance, p1, p2)
  {
  }

  /** The intended Octagonal formula differs from the computed one whenever
      both differences are non-zero. */
  lemma OctogonalDropsDiagonalShortcut(p1: Node, p2: Node)
    requires p1.pos.row != p2.pos.row && p1.pos.col != p2.pos.col
    ensures DistanceOp(OctogonalDistance, p1, p2)
            > 10 * (Abs(p1.pos.row - p2.pos.row) + Abs(p1.pos.col - p2.pos.col))
              - 6 * Min(Abs(p1.pos.row - p2.pos.row), Abs(p1.pos.col - p2.pos.col))
  {
  }

  /** Squaring is monotonic on naturals. */
  lemma SquareMonotone(a: nat, b: nat)
    ensures a <= b ==> a * a <= b * b
  {
    if a <= b {
      assert a * a <= a * b;
      assert a * b <= b * b;
    }
  }

  /** Any square root below an upper bound is bounded by it. */
  lemma FloorSqrtAtMost(n: nat, m: nat)
    requires n < (m + 1) * (m + 1)
    ensures FloorSqrt(n) <= m
  {
    SquareMonotone(m + 1, FloorSqrt(n));
  }

  /** Any number whose square fits is bounded by the square root. */
  lemma FloorSqrtAtLeast(n: nat, m: nat)
    requires m * m <= n
    ensures m <= FloorSqrt(n)
  {
    SquareMonotone(FloorSqrt(n) + 1, m);
  }

  /** The squared distance of the `SQUARED` power, in absolute differences. */
  lemma SquaredDistance(dr: int, dc: int)
    ensures dr * dr + dc * dc == Abs(dr) * Abs(dr) + Abs(dc) * Abs(dc)
    ensures (-dr) * (-dr) + (-dc) * (-dc) == dr * dr + dc * dc
  {
  }

  /** The squared distance lies between the squares of the larger
      difference and of the sum of the differences. */
  lemma SquaredBetween(a: nat, b: nat)
    ensures Max(a, b) * Max(a, b) <= a * a + b * b
    ensures a * a + b * b < (a + b + 1) * (a + b + 1)
  {
    assert (a + b + 1) * (a + b + 1) == a * a + b * b + 2 * a * b + 2 * a + 2 * b + 1;
  }

  /** The Euclidean estimate is symmetric, zero exactly on equal cells, and
      lies between the Chebyshev and the Manhattan distances. */
  lemma EuclideanBounds(p1: Node, p2: Node)
    ensures DistanceOp(EuclideanDistance, p1, p2) == DistanceOp(EuclideanDistance, p2, p1)
    ensures Chebyshev(p1.pos, p2.pos) <= DistanceOp(EuclideanDistance, p1, p2)
    ensures DistanceOp(EuclideanDistance, p1, p2) <= DistanceOp(ManhattanDistance, p1, p2)
    ensures DistanceOp(EuclideanDistance, p1, p2) == 0 <==> p1.pos == p2.pos
  {
    var a, b := Abs(p1.pos.row - p2.pos.row), Abs(p1.pos.col - p2.pos.col);
    EuclideanIsRoot(p1, p2);
    EuclideanIsRoot(p2, p1);
    assert Abs(p2.pos.row - p1.pos.row) == a && Abs(p2.pos.col - p1.pos.col) == b;
    RootBetween(a, b);
  }

  /** The root of `a² + b²` lies between the larger of `a`, `b` and their sum. */
  lemma RootBetween(a: nat, b: nat)
    ensures var n := a * a + b * b;
            n >= 0 && Max(a, b) <= FloorSqrt(n) <= a + b
  {
    SquareMonotone(0, a);
    SquareMonotone(0, b);
    var n: nat := a * a + b * b;
    SquaredBetween(a, b);
    FloorSqrtAtMost(n, a + b);
    FloorSqrtAtLeast(n, Max(a, b));
  }

  /** The Euclidean estimate is the root of the squared absolute differences. */
  lemma EuclideanIsRoot(p1: Node, p2: Node)
    ensures var a, b := Abs(p1.pos.row - p2.pos.row), Abs(p1.pos.col - p2.pos.col);
            DistanceOp(EuclideanDistance, p1, p2) == FloorSqrt(a * a + b * b)
  {
    SquaredDistance(p1.pos.row - p2.pos.row, p1.pos.col - p2.pos.col);
  }

  /** An unknown heuristic id estimates every distance as zero. */
  lemma UnknownHeuristicIsZero(heuristic: int, p1: Node, p2: Node)
    requires heuristic !in {ManhattanDistance, EuclideanDistance, OctogonalDistance}
    ensures DistanceOp(heuristic, p1, p2) == 0
  {
  }

  /** None of the three estimates is admissible for unit-cost diagonal
      moves: each overestimates some one-move distance. */
  lemma EstimatesOverestimate()
    ensures DistanceOp(ManhattanDistance, MakePoint(0, 0), MakePoint(1, 1)) == 2
    ensures DistanceOp(OctogonalDistance, MakePoint(0, 0), MakePoint(1, 1)) == 20
    ensures DistanceOp(EuclideanDistance, MakePoint(0, 0), MakePoint(3, 3)) == 4
    ensures Chebyshev(Coord(0, 0), Coord(3, 3)) == 3
  {
    FloorSqrtAtMost(18, 4);
    FloorSqrtAtLeast(18, 4);
  }
}

=== FILE: lists.dfy ===
/** The open and closed lists of the search and the facts the main loop
    keeps about them: extraction of a minimal node, the children it pushes,
    the parent links that path reconstruction follows, and the measure that
    makes the loop terminate.
 */
module Lists {
  import opened Point
  import opened Grid
  import opened Heuristic
  import opened Expansion

  /** `open[k]` has the least `f` of the list: it can be the front of
      `open` after `std::sort`, which uses `operator<` and breaks no ties. */
  predicate IsMinF(open: seq<Node>, k: int)
  {
    0 <= k < |open| && forall i :: 0 <= i < |open| ==> open[k].f <= open[i].f
  }

  /** A non-empty open list has a node of least `f`. */
  lemma {:induction false} MinExists(open: seq<Node>)
    requires open != []
    ensures exists k :: IsMinF(open, k)
  {
    if |open| == 1 {
      assert IsMinF(open, 0);
    } else {
      MinExists(open[1..]);
      var k :| IsMinF(open[1..], k);
      if open[0].f <= open[k + 1].f {
        assert IsMinF(open, 0);
      } else {
        assert IsMinF(open, k + 1);
      }
    }
  }

  /** A node of least `f` is exactly one that no node of `open` precedes
      under `operator<`, so it is one that `std::sort` may put in front. */
  lemma MinFIsUnbeaten(open: seq<Node>, k: int)
    requires 0 <= k < |open|
    ensures IsMinF(open, k) <==> forall i :: 0 <= i < |open| ==> !LessF(open[i], open[k])
  {
  }

  /** `open` without its `k`-th entry, the others in their order. */
  function Remove(open: seq<Node>, k: nat): (r: seq<Node>)
    requires k < |open|
    ensures |r| == |open| - 1
    ensures multiset(r) + multiset{open[k]} == multiset(open)
  {
    assert open == open[..k] + [open[k]] + open[k + 1..];
    open[..k] + open[k + 1..]
  }

  /** The outcome of one extraction. */
  datatype Extraction = Extraction(node: Node, open: seq<Node>, closed: seq<Node>)

  /** Lines "sort, take the front, erase it, push it on `closed`": the node
      at index `k` moves from `open` to the end of `closed`. */
  function Pop(open: seq<Node>, closed: seq<Node>, k: nat): (r: Extraction)
    requires k < |open|
    ensures r.node == open[k] && r.open == Remove(open, k)
    ensures multiset(r.open) + multiset{r.node} == multiset(open)
    ensures r.closed == closed + [r.node]
    ensures IsMinF(open, k) ==> forall n :: n in r.open ==> r.node.f <= n.f
  {
    var rest := Remove(open, k);
    assert forall n :: n in rest ==> n in multiset(open);
    Extraction(open[k], rest, closed + [open[k]])
  }

  /** `n` is a child of `p` as the inner loop pushes it: a valid neighbour
      of `p` not on `closed`, pointing back to `p`, with `g` one step more
      than `p`'s, `h` the estimate to `dest`, and `f = g + h`. */
  predicate Pushed(grid: Grid, heuristic: int, dest: Node, p: Node, closed: seq<Node>, n: Node)
  {
    && n.pos !in Positions(closed)
    && n.parent == p.pos && IsValid(grid, n.pos) && KingStep(p.pos, n.pos)
    && n.g == p.g + Cost
    && n.h == DistanceOp(heuristic, n, dest)
    && n.f == n.g + n.h
  }

  /** One turn of the inner loop: `child` gets its scores and goes in front
      of `rest`, unless its cell is on `closed`. */
  function PushOne(heuristic: int, dest: Node, p: Node, closed: seq<Node>,
                   child: Node, rest: seq<Node>): seq<Node>
  {
    if Contains(closed, child.pos) then rest
    else [SetScores(child, p.g + Cost, DistanceOp(heuristic, child, dest))] + rest
  }

  /** Every node `PushOne` adds is a pushed child of `p`. */
  lemma PushOneScored(grid: Grid, heuristic: int, dest: Node, p: Node, closed: seq<Node>,
                      child: Node, rest: seq<Node>)
    requires child.parent == p.pos && IsValid(grid, child.pos) && KingStep(p.pos, child.pos)
    requires forall k :: 0 <= k < |rest| ==> Pushed(grid, heuristic, dest, p, closed, rest[k])
    ensures var r := PushOne(heuristic, dest, p, closed, child, rest);
            |r| <= |rest| + 1 && forall k :: 0 <= k < |r| ==> Pushed(grid, heuristic, dest, p, closed, r[k])
  {
    if !Contains(closed, child.pos) {
      var scored := SetScores(child, p.g + Cost, DistanceOp(heuristic, child, dest));
      DistanceOnCells(heuristic, scored, child, dest);
      var r := [scored] + rest;
      assert r[0] == scored && forall k :: 0 < k < |r| ==> r[k] == rest[k - 1];
    }
  }

  /** `PushOne` adds the cell of `child` exactly when it is not on `closed`. */
  lemma PushOnePositions(heuristic: int, dest: Node, p: Node, closed: seq<Node>,
                         child: Node, rest: seq<Node>)
    ensures forall q :: q in Positions(PushOne(heuristic, dest, p, closed, child, rest)) <==>
      (q == child.pos && q !in Positions(closed)) || q in Positions(rest)
  {
    if !Contains(closed, child.pos) {
      var scored := SetScores(child, p.g + Cost, DistanceOp(heuristic, child, dest));
      PositionsConcat([scored], rest);
      assert Positions([scored]) == {child.pos};
    }
  }

  /** `PushOne` in front of nodes that keep the order of `kids[1..]`, with
      cells from it, keeps the order of `kids`. */
  lemma PushOneOrdered(heuristic: int, dest: Node, p: Node, closed: seq<Node>,
                       kids: seq<Node>, rest: seq<Node>)
    requires |kids| > 0
    requires InDirOrder(p, kids[1..]) ==> InDirOrder(p, rest)
    requires forall q :: q in Positions(rest) ==> q in Positions(kids[1..])
    ensures InDirOrder(p, kids) ==> InDirOrder(p, PushOne(heuristic, dest, p, closed, kids[0], rest))
  {
    OrderedTail(p, kids);
    if !Contains(closed, kids[0].pos) {
      OrderedPush(p, SetScores(kids[0], p.g + Cost, DistanceOp(heuristic, kids[0], dest)), kids, rest);
    }
  }

  /** The inner loop over the children: those whose cell is not on
      `closed` get `setScores(p.g + COST, estimate)` and are pushed, in order;
      a child already on `open` is pushed again. */
  function PushChildren(grid: Grid, heuristic: int, dest: Node, p: Node,
                        closed: seq<Node>, kids: seq<Node>): (r: seq<Node>)
    requires forall j :: 0 <= j < |kids| ==>
      kids[j].parent == p.pos && IsValid(grid, kids[j].pos) && KingStep(p.pos, kids[j].pos)
    ensures |r| <= |kids|
    ensures forall k :: 0 <= k < |r| ==> Pushed(grid, heuristic, dest, p, closed, r[k])
    ensures forall q :: q in Positions(r) <==> q in Positions(kids) && q !in Positions(closed)
    ensures InDirOrder(p, kids) ==> InDirOrder(p, r)
  {
    if kids == [] then []
    else
      var rest := PushChildren(grid, heuristic, dest, p, closed, kids[1..]);
      PushOneScored(grid, heuristic, dest, p, closed, kids[0], rest);
      PushOnePositions(heuristic, dest, p, closed, kids[0], rest);
      assert kids == [kids[0]] + kids[1..];
      PositionsConcat([kids[0]], kids[1..]);
      assert Positions([kids[0]]) == {kids[0].pos};
      PushOneOrdered(heuristic, dest, p, closed, kids, rest);
      PushOne(heuristic, dest, p, closed, kids[0], rest)
  }

  /** The children of `p` pushed by one iteration: exactly the valid
      neighbours of `p` that are not on `closed`, one entry per cell in
      `dirList` order, one step further from the origin than `p` and
      pointing back to it. */
  function Successors(grid: Grid, heuristic: int, dest: Node, p: Node, closed: seq<Node>): (r: seq<Node>)
    ensures |r| <= 8
    ensures forall k :: 0 <= k < |r| ==>
      && r[k].pos !in Positions(closed)
      && r[k].parent == p.pos && IsValid(grid, r[k].pos) && KingStep(p.pos, r[k].pos)
      && r[k].g == p.g + Cost
      && r[k].h == DistanceOp(heuristic, r[k], dest)
      && r[k].f == r[k].g + r[k].h
    ensures forall q :: q in Positions(r) <==>
      KingStep(p.pos, q) && IsValid(grid, q) && q !in Positions(closed)
    ensures InDirOrder(p, r)
  {
    PushChildren(grid, heuristic, dest, p, closed, GenerateChildren(grid, p))
  }

  // ---------------------------------------------------------------------
  // Parent links

  /** The parent of `n`, when valid, can be found on `closed`. */
  predicate ParentKnown(grid: Grid, closed: seq<Node>, n: Node)
  {
    IsValid(grid, n.parent) ==> FindItem(closed, n.parent) < |closed|
  }

  /** Every valid parent of a node on `closed` is found strictly before that
      node, so following parents always moves towards the front. */
  ghost predicate Linked(grid: Grid, closed: seq<Node>)
  {
    forall i {:trigger closed[i].parent} :: 0 <= i < |closed| && IsValid(grid, closed[i].parent) ==>
      FindItem(closed, closed[i].parent) < i
  }

  /** `n` was pushed as a child: its cell is valid, one move from its
      parent, and the parent is found on `closed` before index `bound`. */
  predicate IsChild(grid: Grid, n: Node, closed: seq<Node>, bound: int)
  {
    IsValid(grid, n.pos) && KingStep(n.parent, n.pos) && FindItem(closed, n.parent) < bound
  }

  /** Every node on `closed` is the origin or a child of an earlier one. */
  ghost predicate Rooted(grid: Grid, closed: seq<Node>, origin: Node)
  {
    forall i {:trigger closed[i].parent} :: 0 <= i < |closed| ==>
      closed[i] == origin || IsChild(grid, closed[i], closed, i)
  }

  /** Appending a node whose parent is known keeps the list linked. */
  lemma AppendLinked(grid: Grid, closed: seq<Node>, p: Node)
    requires Linked(grid, closed) && ParentKnown(grid, closed, p)
    ensures Linked(grid, closed + [p])
  {
    var c := closed + [p];
    forall i | 0 <= i < |c| && IsValid(grid, c[i].parent)
      ensures FindItem(c, c[i].parent) < i
    {
      FindItemExtends(closed, [p], c[i].parent);
    }
  }

  /** Appending a node keeps the child facts of the nodes before it. */
  lemma AppendKeepsChild(grid: Grid, closed: seq<Node>, p: Node, n: Node, bound: int)
    requires bound <= |closed| && IsChild(grid, n, closed, bound)
    ensures IsChild(grid, n, closed + [p], bound)
  {
    FindItemExtends(closed, [p], n.parent);
  }

  // ---------------------------------------------------------------------
  // Paths

  /** `w` goes from `a` to `b` by king moves, every cell after the first
      passing `isValid`. */
  ghost predicate PathFrom(grid: Grid, w: seq<Coord>, a: Coord, b: Coord)
  {
    && |w| >= 1 && w[0] == a && w[|w| - 1] == b
    && (forall j :: 0 <= j < |w| - 1 ==> KingStep(w[j], w[j + 1]))
    && (forall j :: 0 < j < |w| ==> IsValid(grid, w[j]))
  }

  /** Termination measure of the parent walk from `n`. */
  function Rank(grid: Grid, closed: seq<Node>, n: Node): nat
  {
    if IsValid(grid, n.parent) then FindItem(closed, n.parent) + 1 else 0
  }

  /** The cells met by following parents from `n` through `closed`, the
      root first; the walk stops at the first parent that is not valid. */
  ghost function Ancestors(grid: Grid, closed: seq<Node>, n: Node): seq<Coord>
    requires Linked(grid, closed) && ParentKnown(grid, closed, n)
    decreases Rank(grid, closed, n)
  {
    if !IsValid(grid, n.parent) then []
    else
      var q := closed[FindItem(closed, n.parent)];
      Ancestors(grid, closed, q) + [q.pos]
  }

  /** In a rooted closed list every parent walk ends at the origin, by
      king moves over valid cells. */
  lemma {:induction false} AncestorPath(grid: Grid, closed: seq<Node>, origin: Node, n: Node)
    requires Linked(grid, closed) && Rooted(grid, closed, origin)
    requires IsValid(grid, origin.pos) && !IsValid(grid, origin.parent)
    requires n == origin || IsChild(grid, n, closed, |closed|)
    ensures ParentKnown(grid, closed, n)
    ensures PathFrom(grid, Ancestors(grid, closed, n) + [n.pos], origin.pos, n.pos)
    ensures forall c :: c in Ancestors(grid, closed, n) + [n.pos] ==> IsValid(grid, c)
    decreases Rank(grid, closed, n)
  {
    if n != origin {
      var k := FindItem(closed, n.parent);
      var q := closed[k];
      assert q == origin || IsChild(grid, q, closed, k);
      assert IsValid(grid, n.parent);
      AncestorPath(grid, closed, origin, q);
      var wq := Ancestors(grid, closed, q) + [q.pos];
      assert Ancestors(grid, closed, n) + [n.pos] == wq + [n.pos];
    }
  }

  /** A walk that starts on a closed list closed under valid moves never
      leaves it. */
  lemma {:induction false} WalkStaysClosed(grid: Grid, closed: seq<Node>, w: seq<Coord>)
    requires |w| >= 1 && w[0] in Positions(closed)
    requires forall j :: 0 <= j < |w| - 1 ==> KingStep(w[j], w[j + 1])
    requires forall j :: 0 < j < |w| ==> IsValid(grid, w[j])
    requires forall i, q :: 0 <= i < |closed| && KingStep(closed[i].pos, q) && IsValid(grid, q) ==>
      q in Positions(closed)
    ensures w[|w| - 1] in Positions(closed)
    decreases |w|
  {
    if |w| > 1 {
      var w' := w[..|w| - 1];
      WalkStaysClosed(grid, closed, w');
      var i := FindItem(closed, w[|w| - 2]);
      assert KingStep(closed[i].pos, w[|w| - 1]);
    }
  }

  // ---------------------------------------------------------------------
  // Termination measure

  /** The cells `isValid` can accept: the inclusive box `[0..sizeM] × [0..sizeN]`. */
  function Box(grid: Grid): set<Coord>
  {
    set r: int, c: int | 0 <= r <= grid.sizeM && 0 <= c <= grid.sizeN :: Coord(r, c)
  }

  lemma ValidInBox(grid: Grid, q: Coord)
    requires IsValid(grid, q)
    ensures q in Box(grid)
  {
    assert q == Coord(q.row, q.col);
  }

  /** The cells any node of a run can sit on. */
  function Universe(grid: Grid, origin: Node): set<Coord>
  {
    {origin.pos} + Box(grid)
  }

  /** First component of the measure: cells of the universe not yet closed. */
  function Unclosed(grid: Grid, origin: Node, closed: seq<Node>): nat
  {
    |Universe(grid, origin) - Positions(closed)|
  }

  /** Second component: entries of `open` whose cell is in `s`. */
  function CountAt(open: seq<Node>, s: set<Coord>): nat
  {
    if open == [] then 0
    else (if open[0].pos in s then 1 else 0) + CountAt(open[1..], s)
  }

  lemma {:induction false} CountConcat(a: seq<Node>, b: seq<Node>, s: set<Coord>)
    ensures CountAt(a + b, s) == CountAt(a, s) + CountAt(b, s)
    decreases |a|
  {
    if a == [] {
      assert a + b == b;
    } else {
      assert (a + b)[1..] == a[1..] + b;
      CountConcat(a[1..], b, s);
    }
  }

  lemma {:induction false} CountNone(a: seq<Node>, s: set<Coord>)
    requires forall k :: 0 <= k < |a| ==> a[k].pos !in s
    ensures CountAt(a, s) == 0
    decreases |a|
  {
    if a != [] {
      CountNone(a[1..], s);
    }
  }

  /** Removing an entry whose cell is in `s` lowers the count by one. */
  lemma CountRemove(open: seq<Node>, k: nat, s: set<Coord>)
    requires k < |open| && open[k].pos in s
    ensures CountAt(Remove(open, k), s) + 1 == CountAt(open, s)
  {
    assert open == open[..k] + [open[k]] + open[k + 1..];
    CountConcat(open[..k] + [open[k]], open[k + 1..], s);
    CountConcat(open[..k], [open[k]], s);
    CountConcat(open[..k], open[k + 1..], s);
  }

  /** Closing a cell of the universe not closed before lowers `Unclosed`. */
  lemma CloseNewCell(grid: Grid, origin: Node, closed: seq<Node>, p: Node)
    requires p.pos in Universe(grid, origin) && p.pos !in Positions(closed)
    ensures Unclosed(grid, origin, closed + [p]) < Unclosed(grid, origin, closed)
  {
    var u := Universe(grid, origin);
    PositionsConcat(closed, [p]);
    assert Positions([p]) == {p.pos};
    assert u - Positions(closed + [p]) == (u - Positions(closed)) - {p.pos};
  }

  /** One pop followed by its pushes lowers the measure: either a new cell
      is closed, or a duplicate of a closed cell leaves `open` and nothing
      pushed sits on a closed cell. */
  lemma MeasureDecreases(grid: Grid, origin: Node, open: seq<Node>, closed: seq<Node>,
                         k: nat, kids: seq<Node>)
    requires k < |open|
    requires open[k].pos in Universe(grid, origin)
    requires forall j :: 0 <= j < |kids| ==> kids[j].pos !in Positions(closed + [open[k]])
    ensures var closed' := closed + [open[k]];
            var open' := Remove(open, k) + kids;
            || Unclosed(grid, origin, closed') < Unclosed(grid, origin, closed)
            || (&& Unclosed(grid, origin, closed') == Unclosed(grid, origin, closed)
                && CountAt(open', Positions(closed')) < CountAt(open, Positions(closed)))
  {
    var p := open[k];
    var closed' := closed + [p];
    if p.pos in Positions(closed) {
      PositionsConcat(closed, [p]);
      assert Positions([p]) == {p.pos};
      var s := Positions(closed);
      assert Positions(closed') == s;
      CountRemove(open, k, s);
      CountConcat(Remove(open, k), kids, s);
      CountNone(kids, s);
    } else {
      CloseNewCell(grid, origin, closed, p);
    }
  }
}

=== FILE: point.dfy ===
/** Coordinates and search nodes (the `point` class and its helpers).

    A node carries its cell, the three integer scores `f`, `g`, `h` and the
    coordinate (not the node) of its parent, so that the predecessor is found
    again by a lookup in the closed list.
 */
module Point {

  /** Component value meaning "no coordinate" (`INEXISTENT`). */
  const Inexistent: int := -1

  /** Cost of one move, the same in all eight directions (`COST`). */
  const Cost: int := 1

  /** A grid cell `(row, col)`, the source's `std::pair<int,int>`. */
  datatype Coord = Coord(row: int, col: int)

  /** The reserved "no coordinate" value, used for "no parent". */
  const Sentinel: Coord := Coord(Inexistent, Inexistent)

  /** A search node. The source stores the scores as `float`; every score
      the engine writes goes through the integer `setScores`, so they are
      integers here. A `float` holds such integers exactly only below 2^24;
      README.md lists the larger scores under "## Left out". */
  datatype Node = Node(pos: Coord, f: int, g: int, h: int, parent: Coord)

  /** `point()`: cell (0,0) (a value-initialised pair), zero scores, no parent. */
  function DefaultPoint(): Node
  {
    Node(Coord(0, 0), 0, 0, 0, Sentinel)
  }

  /** `point(a, b)`: cell (a,b), zero scores, no parent. */
  function MakePoint(a: int, b: int): Node
  {
    Node(Coord(a, b), 0, 0, 0, Sentinel)
  }

  /** `point(p, dx, dy)`: the cell shifted by (dx,dy), scores copied from `p`,
      parent set to `p`'s cell. */
  function Shift(p: Node, dx: int, dy: int): Node
  {
    Node(Coord(p.pos.row + dx, p.pos.col + dy), p.f, p.g, p.h, p.pos)
  }

  /** `point::operator==`: two nodes are equal when their cells are. */
  predicate SamePos(a: Node, b: Node)
  {
    a.pos == b.pos
  }

  /** `operator<`, the sort key: compares `f` only. */
  predicate LessF(a: Node, b: Node)
  {
    a.f < b.f
  }

  /** `matchPointCoords`: the node sits at cell `c`. */
  predicate MatchPointCoords(p: Node, c: Coord)
  {
    p.pos == c
  }

  /** `setScores(g, h)`: the single place where scores are written. */
  function SetScores(p: Node, g: int, h: int): (r: Node)
    ensures r.f == r.g + r.h
    ensures r.g == g && r.h == h
    ensures r.pos == p.pos && r.parent == p.parent
  {
    p.(g := g, h := h, f := g + h)
  }

  /** The cells of the nodes of `s`. */
  function Positions(s: seq<Node>): set<Coord>
  {
    set n | n in s :: n.pos
  }

  /** `find_item(vec, c)`: the index of the first node at `c`, or `|s|`
      (the `end()` iterator) when there is none. */
  function FindItem(s: seq<Node>, c: Coord): (r: nat)
    ensures r <= |s|
    ensures r < |s| ==> MatchPointCoords(s[r], c)
    ensures forall i :: 0 <= i < r ==> !MatchPointCoords(s[i], c)
    ensures r < |s| <==> c in Positions(s)
  {
    if s == [] then 0
    else if MatchPointCoords(s[0], c) then 0
    else
      assert Positions(s) == {s[0].pos} + Positions(s[1..]) by {
        assert forall n :: n in s <==> n == s[0] || n in s[1..];
      }
      1 + FindItem(s[1..], c)
  }

  /** The `contains` macro over a node list, as applied to `closed`. */
  predicate Contains(s: seq<Node>, c: Coord)
    ensures Contains(s, c) <==> c in Positions(s)
  {
    FindItem(s, c) < |s|
  }

  /** One move of the eight-connected grid: a different cell at most one
      row and one column away. */
  predicate KingStep(a: Coord, b: Coord)
  {
    a != b && -1 <= a.row - b.row <= 1 && -1 <= a.col - b.col <= 1
  }

  /** Appending nodes does not move the first occurrence of a cell that is
      already present. */
  lemma {:induction false} FindItemExtends(s: seq<Node>, t: seq<Node>, c: Coord)
    requires c in Positions(s)
    ensures FindItem(s + t, c) == FindItem(s, c)
  {
    if MatchPointCoords(s[0], c) {
    } else {
      assert (s + t)[1..] == s[1..] + t;
      assert c in Positions(s[1..]) by {
        var k := FindItem(s, c);
        assert s[k] in s[1..];
      }
      FindItemExtends(s[1..], t, c);
    }
  }

  /** The cells of a concatenation. */
  lemma PositionsConcat(s: seq<Node>, t: seq<Node>)
    ensures Positions(s + t) == Positions(s) + Positions(t)
  {
    assert forall n :: n in s + t <==> n in s || n in t;
  }
}

=== FILE: search.dfy ===
/** The `aStar` engine: `runAlgorithm`, `returnPath` and `getPath`.

    The engine is a value; `RunAlgorithm` returns the exit code and the
    engine as the call leaves it.
 */
module Search {
  import opened Point
  import opened Grid
  import opened Heuristic
  import opened Expansion
  import opened Lists

  /** `EXIT_SUCCESS` / `EXIT_FAILURE`. */
  const ExitSuccess: int := 0
  const ExitFailure: int := 1

  /** The fields of `aStar` a search reads or writes. `heuristic` is the id
      held by the engine's `Heuristic` object. */
  datatype Engine = Engine(
    grid: Grid,
    heuristic: int,
    origin: Node,
    destination: Node,
    open: seq<Node>,
    closed: seq<Node>,
    pathStart: Node,
    path: seq<Coord>)

  /** `getPath()`. */
  function GetPath(e: Engine): seq<Coord>
  {
    e.path
  }

  /** `returnPath()`: when `start`'s cell is valid, it and then, while the
      current node's parent is valid, the first node on `closed` at that
      parent are prepended to the path. The source reads that node through
      an iterator into a by-value copy of `closed` that is already destroyed;
      the model reads it from `closed` itself. */
  method ReturnPath(grid: Grid, closed: seq<Node>, start: Node) returns (path: seq<Coord>)
    requires Linked(grid, closed) && ParentKnown(grid, closed, start)
    ensures !IsValid(grid, start.pos) ==> path == []
    ensures IsValid(grid, start.pos) ==> path == Ancestors(grid, closed, start) + [start.pos]
    ensures IsValid(grid, start.pos) ==> |path| >= 1 && path[|path| - 1] == start.pos
  {
    path := [];
    var current := start;
    if IsValid(grid, current.pos) {
      path := [start.pos];
      while IsValid(grid, current.parent)
        invariant ParentKnown(grid, closed, current)
        invariant Ancestors(grid, closed, current) + path == Ancestors(grid, closed, start) + [start.pos]
        decreases Rank(grid, closed, current)
      {
        var k := FindItem(closed, current.parent);
        path := [closed[k].pos] + path;
        current := closed[k];
      }
    }
  }

  /** Nodes popped by this call: those after the first `|c0|` of `closed`. */
  ghost predicate Prefix(c0: seq<Node>, closed: seq<Node>)
  {
    |c0| <= |closed| && closed[..|c0|] == c0
  }

  /** The call starts from `open == [origin]` and pops the origin first. */
  ghost predicate Started(origin: Node, c0: seq<Node>, open: seq<Node>, closed: seq<Node>)
    requires Prefix(c0, closed)
  {
    && (|closed| == |c0| ==> open == [origin])
    && (|closed| > |c0| ==> closed[|c0|] == origin)
  }

  /** No node popped so far by this call sits on the destination. */
  ghost predicate Unreached(dest: Node, c0: seq<Node>, closed: seq<Node>)
  {
    forall i :: |c0| <= i < |closed| ==> closed[i].pos != dest.pos
  }

  /** Nodes popped by this call are the origin or children of earlier nodes. */
  ghost predicate RunRooted(grid: Grid, origin: Node, c0: seq<Node>, closed: seq<Node>)
  {
    forall i {:trigger closed[i].parent} :: |c0| <= i < |closed| ==>
      closed[i] == origin || IsChild(grid, closed[i], closed, i)
  }

  /** Nodes on `open` are the origin or children of closed nodes. */
  ghost predicate OpenRooted(grid: Grid, origin: Node, open: seq<Node>, closed: seq<Node>)
  {
    forall n :: n in open ==> n == origin || IsChild(grid, n, closed, |closed|)
  }

  /** Nodes on `open` sit in the measure's universe. */
  ghost predicate InUniverse(grid: Grid, origin: Node, open: seq<Node>)
  {
    forall n :: n in open ==> n.pos in Universe(grid, origin)
  }

  /** Every valid neighbour of a node this call closed is closed or waiting
      on `open`. */
  ghost predicate Covered(grid: Grid, c0: seq<Node>, open: seq<Node>, closed: seq<Node>)
  {
    forall i, q :: |c0| <= i < |closed| && KingStep(closed[i].pos, q) && IsValid(grid, q) ==>
      q in Positions(closed) || q in Positions(open)
  }

  /** Nodes on `open` other than the origin sit on cells that were not on
      `closed` when the call started: children are never pushed onto a
      closed cell, and `closed` only grows. */
  ghost predicate Fresh(origin: Node, c0: seq<Node>, open: seq<Node>)
  {
    forall n :: n in open ==> n == origin || n.pos !in Positions(c0)
  }

  /** What the main loop keeps true at its head. `c0` is the closed list the
      call started with. */
  ghost predicate SearchInv(grid: Grid, origin: Node, dest: Node, c0: seq<Node>,
                            open: seq<Node>, closed: seq<Node>)
  {
    && Linked(grid, c0) && ParentKnown(grid, c0, origin)
    && Prefix(c0, closed)
    && Started(origin, c0, open, closed)
    && Unreached(dest, c0, closed)
    && Linked(grid, closed)
    && RunRooted(grid, origin, c0, closed)
    && OpenRooted(grid, origin, open, closed)
    && InUniverse(grid, origin, open)
    && Covered(grid, c0, open, closed)
    && Fresh(origin, c0, open)
  }

  lemma InitialInv(grid: Grid, origin: Node, dest: Node, c0: seq<Node>)
    requires Linked(grid, c0) && ParentKnown(grid, c0, origin)
    ensures SearchInv(grid, origin, dest, c0, [origin], c0)
  {
  }

  /** The popped node keeps the closed list linked and, popped by this
      call, is the origin or a child of a node before it. */
  lemma PopKeepsLinks(grid: Grid, origin: Node, c0: seq<Node>,
                      open: seq<Node>, closed: seq<Node>, k: nat)
    requires ParentKnown(grid, c0, origin) && Prefix(c0, closed) && Started(origin, c0, open, closed)
    requires Linked(grid, closed) && RunRooted(grid, origin, c0, closed) && OpenRooted(grid, origin, open, closed)
    requires k < |open|
    ensures Prefix(c0, closed + [open[k]])
    ensures Started(origin, c0, Remove(open, k), closed + [open[k]])
    ensures Linked(grid, closed + [open[k]])
    ensures ParentKnown(grid, closed + [open[k]], open[k])
    ensures RunRooted(grid, origin, c0, closed + [open[k]])
    ensures open[k] == origin || IsChild(grid, open[k], closed + [open[k]], |closed|)
  {
    var p := open[k];
    var c := closed + [p];
    assert p in open;
    assert c[..|c0|] == closed[..|c0|];
    if p == origin {
      if IsValid(grid, p.parent) {
        FindItemExtends(c0, closed[|c0|..], p.parent);
        assert c0 + closed[|c0|..] == closed;
      }
    }
    assert ParentKnown(grid, closed, p);
    AppendLinked(grid, closed, p);
    if IsValid(grid, p.parent) {
      FindItemExtends(closed, [p], p.parent);
    }
    forall i | |c0| <= i < |c|
      ensures c[i] == origin || IsChild(grid, c[i], c, i)
    {
      if i < |closed| {
        assert c[i] == closed[i];
        assert closed[i].parent == c[i].parent;
        if c[i] != origin {
          AppendKeepsChild(grid, closed, p, c[i], i);
        }
      }
    }
  }

  /** Entries left on `open` and the pushed children keep their parent
      facts and stay in the universe. */
  lemma OpenStep(grid: Grid, heuristic: int, origin: Node, dest: Node,
                 open: seq<Node>, closed: seq<Node>, k: nat)
    requires OpenRooted(grid, origin, open, closed) && InUniverse(grid, origin, open)
    requires k < |open|
    ensures var closed' := closed + [open[k]];
            var open' := Remove(open, k) + Successors(grid, heuristic, dest, open[k], closed');
            OpenRooted(grid, origin, open', closed') && InUniverse(grid, origin, open')
  {
    var p := open[k];
    var closed' := closed + [p];
    var rest := Remove(open, k);
    var kids := Successors(grid, heuristic, dest, p, closed');
    var open' := rest + kids;
    forall n | n in open'
      ensures n == origin || IsChild(grid, n, closed', |closed'|)
      ensures n.pos in Universe(grid, origin)
    {
      if n in rest {
        assert n in multiset(rest);
        assert n in open;
        if n != origin {
          AppendKeepsChild(grid, closed, p, n, |closed|);
        }
      } else {
        var j :| 0 <= j < |kids| && kids[j] == n;
        PositionsConcat(closed, [p]);
        assert p.pos in Positions(closed');
        ValidInBox(grid, n.pos);
      }
    }
  }

  /** A cell closed or on `open` before a pop is closed or still on `open`
      after it. */
  lemma PopKeepsCell(open: seq<Node>, closed: seq<Node>, k: nat, q: Coord)
    requires k < |open|
    requires q in Positions(closed) || q in Positions(open)
    ensures q in Positions(closed + [open[k]]) || q in Positions(Remove(open, k))
  {
    var p := open[k];
    var rest := Remove(open, k);
    PositionsConcat(closed, [p]);
    assert Positions([p]) == {p.pos};
    if q !in Positions(closed) && q != p.pos {
      var n :| n in open && n.pos == q;
      assert n in multiset(open);
      assert n in multiset(rest);
    }
  }

  /** After the pushes, the valid neighbours of every node this call closed
      are still closed or on `open`. */
  lemma CoverStep(grid: Grid, c0: seq<Node>, open: seq<Node>, closed: seq<Node>, k: nat,
                  kids: seq<Node>)
    requires Prefix(c0, closed) && Covered(grid, c0, open, closed)
    requires k < |open|
    requires forall q :: KingStep(open[k].pos, q) && IsValid(grid, q) ==>
      q in Positions(closed + [open[k]]) || q in Positions(kids)
    ensures Covered(grid, c0, Remove(open, k) + kids, closed + [open[k]])
  {
    var p := open[k];
    var closed' := closed + [p];
    var rest := Remove(open, k);
    var open' := rest + kids;
    PositionsConcat(rest, kids);
    forall i, q | |c0| <= i < |closed'| && KingStep(closed'[i].pos, q) && IsValid(grid, q)
      ensures q in Positions(closed') || q in Positions(open')
    {
      if i < |closed| {
        assert closed'[i] == closed[i];
        PopKeepsCell(open, closed, k, q);
      }
    }
  }

  /** Cells on the starting closed list stay on `closed`. */
  lemma PrefixPositions(c0: seq<Node>, closed: seq<Node>)
    requires Prefix(c0, closed)
    ensures Positions(c0) <= Positions(closed)
  {
    assert closed == c0 + closed[|c0|..];
    PositionsConcat(c0, closed[|c0|..]);
  }

  /** A parent found on the starting closed list is still found, at the
      same index, after the call's pops. */
  lemma PrefixKeepsParent(grid: Grid, c0: seq<Node>, closed: seq<Node>, n: Node)
    requires Prefix(c0, closed) && ParentKnown(grid, c0, n)
    ensures ParentKnown(grid, closed, n)
  {
    if IsValid(grid, n.parent) {
      assert closed == c0 + closed[|c0|..];
      FindItemExtends(c0, closed[|c0|..], n.parent);
    }
  }

  /** The pushes of one iteration keep `open` fresh. */
  lemma FreshStep(grid: Grid, heuristic: int, origin: Node, dest: Node, c0: seq<Node>,
                  open: seq<Node>, closed: seq<Node>, k: nat)
    requires Prefix(c0, closed) && Fresh(origin, c0, open)
    requires k < |open|
    ensures var closed' := closed + [open[k]];
            Fresh(origin, c0, Remove(open, k) + Successors(grid, heuristic, dest, open[k], closed'))
  {
    var closed' := closed + [open[k]];
    var rest := Remove(open, k);
    var kids := Successors(grid, heuristic, dest, open[k], closed');
    assert Prefix(c0, closed') by {
      assert closed'[..|c0|] == closed[..|c0|];
    }
    PrefixPositions(c0, closed');
    forall n | n in rest + kids
      ensures n == origin || n.pos !in Positions(c0)
    {
      if n in rest {
        assert n in multiset(rest);
        assert n in open;
      } else {
        var j :| 0 <= j < |kids| && kids[j] == n;
      }
    }
  }

  /** One iteration that does not reach the destination keeps the
      invariant. */
  lemma IterationPreserves(grid: Grid, heuristic: int, origin: Node, dest: Node, c0: seq<Node>,
                           open: seq<Node>, closed: seq<Node>, k: nat)
    requires SearchInv(grid, origin, dest, c0, open, closed)
    requires k < |open| && open[k].pos != dest.pos
    ensures var closed' := closed + [open[k]];
            SearchInv(grid, origin, dest, c0,
                      Remove(open, k) + Successors(grid, heuristic, dest, open[k], closed'), closed')
  {
    var p := open[k];
    var closed' := closed + [p];
    var kids := Successors(grid, heuristic, dest, p, closed');
    PopKeepsLinks(grid, origin, c0, open, closed, k);
    OpenStep(grid, heuristic, origin, dest, open, closed, k);
    CoverStep(grid, c0, open, closed, k, kids);
    FreshStep(grid, heuristic, origin, dest, c0, open, closed, k);
    assert Started(origin, c0, Remove(open, k) + kids, closed');
  }

  /** One iteration that does not reach the destination lowers the
      termination measure of the main loop. */
  lemma IterationDecreases(grid: Grid, heuristic: int, origin: Node, dest: Node,
                           open: seq<Node>, closed: seq<Node>, k: nat)
    requires InUniverse(grid, origin, open)
    requires k < |open|
    ensures var closed' := closed + [open[k]];
            var open' := Remove(open, k) + Successors(grid, heuristic, dest, open[k], closed');
            || Unclosed(grid, origin, closed') < Unclosed(grid, origin, closed)
            || (&& Unclosed(grid, origin, closed') == Unclosed(grid, origin, closed)
                && CountAt(open', Positions(closed')) < CountAt(open, Positions(closed)))
  {
    var closed' := closed + [open[k]];
    assert open[k] in open;
    MeasureDecreases(grid, origin, open, closed, k, Successors(grid, heuristic, dest, open[k], closed'));
  }

  /** With an empty starting closed list, every node popped by the call is
      the origin or a child of an earlier one. */
  lemma RunIsRooted(grid: Grid, origin: Node, closed: seq<Node>)
    requires RunRooted(grid, origin, [], closed)
    ensures Rooted(grid, closed, origin)
  {
    forall i | 0 <= i < |closed|
      ensures closed[i] == origin || IsChild(grid, closed[i], closed, i)
    {
      // mentions `closed[i].parent`, the trigger of `RunRooted` and `Rooted`
      assert closed[i].parent == closed[i].parent;
    }
  }

  /** From an empty starting closed list and a valid origin, the ancestors
      of the last node popped, followed by its cell, walk from the origin to
      that cell through valid cells. */
  lemma FoundPath(grid: Grid, origin: Node, closed: seq<Node>, p: Node)
    requires RunRooted(grid, origin, [], closed) && Linked(grid, closed)
    requires |closed| > 0 && closed[|closed| - 1] == p
    requires IsValid(grid, origin.pos) && !IsValid(grid, origin.parent)
    ensures PathFrom(grid, Ancestors(grid, closed, p) + [p.pos], origin.pos, p.pos)
    ensures forall c :: c in Ancestors(grid, closed, p) + [p.pos] ==> IsValid(grid, c)
  {
    RunIsRooted(grid, origin, closed);
    if p != origin {
      assert closed[|closed| - 1].parent == p.parent;
      assert IsChild(grid, p, closed, |closed| - 1);
    }
    AncestorPath(grid, closed, origin, p);
  }

  /** An exhausted search from an empty closed list closed every cell
      reachable from the origin, and never the destination. */
  lemma ExhaustedMeansUnreachable(grid: Grid, origin: Node, dest: Node, closed: seq<Node>)
    requires SearchInv(grid, origin, dest, [], [], closed)
    ensures forall w :: !PathFrom(grid, w, origin.pos, dest.pos)
  {
    assert |closed| > 0 && closed[0] == origin;
    assert origin.pos in Positions(closed);
    assert Positions([]) == {};
    forall w | PathFrom(grid, w, origin.pos, dest.pos)
      ensures w[|w| - 1] in Positions(closed)
    {
      WalkStaysClosed(grid, closed, w);
    }
    assert dest.pos !in Positions(closed) by {
      forall n | n in closed ensures n.pos != dest.pos {
        var i :| 0 <= i < |closed| && closed[i] == n;
      }
    }
  }

  /** What the loop knows when it pops the destination's cell: the facts
      `RunAlgorithm` promises about a successful call. */
  lemma FoundOutcome(grid: Grid, origin: Node, dest: Node, c0: seq<Node>,
                     open: seq<Node>, closed: seq<Node>, k: nat)
    requires SearchInv(grid, origin, dest, c0, open, closed)
    requires k < |open| && open[k].pos == dest.pos
    ensures var p := open[k];
            var closed' := closed + [p];
            && |closed'| > |c0| && closed'[..|c0|] == c0 && closed'[|c0|] == origin
            && (forall i :: |c0| <= i < |closed'| - 1 ==> closed'[i].pos != dest.pos)
            && Linked(grid, closed') && ParentKnown(grid, closed', p)
            && (origin.pos == dest.pos ==> closed' == c0 + [origin])
            && (origin.pos != dest.pos ==> dest.pos !in Positions(c0))
            && ParentKnown(grid, closed', origin)
            && (c0 == [] && IsValid(grid, origin.pos) ==>
                  && PathFrom(grid, Ancestors(grid, closed', p) + [p.pos], origin.pos, dest.pos)
                  && forall c :: c in Ancestors(grid, closed', p) + [p.pos] ==> IsValid(grid, c))
  {
    var p := open[k];
    var closed' := closed + [p];
    PopKeepsLinks(grid, origin, c0, open, closed, k);
    if c0 == [] && IsValid(grid, origin.pos) {
      FoundPath(grid, origin, closed', p);
    }
    if origin.pos == dest.pos {
      assert |closed| == |c0|;
      assert closed == closed[..|c0|];
    } else {
      assert p in open && p != origin;
    }
    assert Prefix(c0, closed') by {
      assert closed'[..|c0|] == closed[..|c0|];
    }
    PrefixKeepsParent(grid, c0, closed', origin);
  }

  /** What the loop knows when `open` runs empty: the facts `RunAlgorithm`
      promises about a failed call. */
  lemma ExhaustedOutcome(grid: Grid, origin: Node, dest: Node, c0: seq<Node>, closed: seq<Node>)
    requires SearchInv(grid, origin, dest, c0, [], closed)
    ensures |closed| > |c0| && closed[..|c0|] == c0 && closed[|c0|] == origin
    ensures forall i :: |c0| <= i < |closed| ==> closed[i].pos != dest.pos
    ensures Linked(grid, closed)
    ensures origin.pos != dest.pos
    ensures c0 == [] ==> forall w :: !PathFrom(grid, w, origin.pos, dest.pos)
    ensures ParentKnown(grid, closed, origin)
  {
    PrefixKeepsParent(grid, c0, closed, origin);
    if c0 == [] {
      ExhaustedMeansUnreachable(grid, origin, dest, closed);
    }
  }

  /** The loop of `runAlgorithm()`: `open` is emptied and the origin pushed;
      each iteration pops a node of least `f`, stops when it is on the
      destination's cell, and otherwise closes it and pushes its children not
      yet closed. On return either the destination's node is `open[k]`, not
      yet popped, or `open` ran empty. */
  method Explore(e: Engine) returns (found: bool, open: seq<Node>, closed: seq<Node>, k: nat)
    requires Linked(e.grid, e.closed) && ParentKnown(e.grid, e.closed, e.origin)
    ensures SearchInv(e.grid, e.origin, e.destination, e.closed, open, closed)
    ensures found ==> k < |open| && open[k].pos == e.destination.pos && IsMinF(open, k)
    ensures !found ==> open == []
  {
    var grid, origin, dest, c0 := e.grid, e.origin, e.destination, e.closed;
    open := [];
    closed := c0;
    open := open + [origin];
    InitialInv(grid, origin, dest, c0);
    found, k := false, 0;
    while open != []
      invariant SearchInv(grid, origin, dest, c0, open, closed)
      decreases Unclosed(grid, origin, closed), CountAt(open, Positions(closed))
    {
      MinExists(open);
      k :| IsMinF(open, k);
      if SamePos(open[k], dest) {
        found := true;
        return;
      }
      IterationPreserves(grid, e.heuristic, origin, dest, c0, open, closed, k);
      IterationDecreases(grid, e.heuristic, origin, dest, open, closed, k);
      var popped := Pop(open, closed, k);
      var p := popped.node;
      closed := popped.closed;
      open := popped.open + Successors(grid, e.heuristic, dest, p, closed);
    }
  }

  /** The successful exit of `runAlgorithm()`: the destination's node
      `open[k]` is popped and closed, becomes `pathStart`, and `returnPath`
      builds the path from it. */
  method FinishFound(e: Engine, open: seq<Node>, closed: seq<Node>, k: nat) returns (e': Engine)
    requires SearchInv(e.grid, e.origin, e.destination, e.closed, open, closed)
    requires k < |open| && open[k].pos == e.destination.pos
    ensures e'.grid == e.grid && e'.heuristic == e.heuristic
    ensures e'.origin == e.origin && e'.destination == e.destination
    ensures |e'.closed| > |e.closed| && e'.closed[..|e.closed|] == e.closed
    ensures e'.closed[|e.closed|] == e.origin
    ensures forall i :: |e.closed| <= i < |e'.closed| - 1 ==> e'.closed[i].pos != e.destination.pos
    ensures e'.closed[|e'.closed| - 1].pos == e.destination.pos
    ensures Linked(e'.grid, e'.closed) && ParentKnown(e'.grid, e'.closed, e'.origin)
    ensures e.destination.pos in Positions(e.closed) ==> e.origin.pos == e.destination.pos
    ensures e'.pathStart == e'.closed[|e'.closed| - 1]
    ensures GetPath(e') == [] <==> !IsValid(e.grid, e.destination.pos)
    ensures e.origin.pos == e.destination.pos ==> e'.closed == e.closed + [e.origin]
    ensures e.closed == [] && IsValid(e.grid, e.origin.pos) ==>
      && PathFrom(e.grid, GetPath(e'), e.origin.pos, e.destination.pos)
      && forall c :: c in GetPath(e') ==> IsValid(e.grid, c)
    ensures e.closed == [] && IsValid(e.grid, e.origin.pos) && e.origin.pos == e.destination.pos ==>
      GetPath(e') == [e.origin.pos]
  {
    FoundOutcome(e.grid, e.origin, e.destination, e.closed, open, closed, k);
    var popped := Pop(open, closed, k);
    var p := popped.node;
    var path := ReturnPath(e.grid, popped.closed, p);
    e' := e.(open := popped.open, closed := popped.closed, pathStart := p, path := path);
  }

  /** The failing exit of `runAlgorithm()`: `open` ran empty without the
      destination's cell being popped; the path and `pathStart` are left as
      the call set them. */
  method FinishExhausted(e: Engine, closed: seq<Node>) returns (e': Engine)
    requires SearchInv(e.grid, e.origin, e.destination, e.closed, [], closed)
    ensures e'.grid == e.grid && e'.heuristic == e.heuristic
    ensures e'.origin == e.origin && e'.destination == e.destination
    ensures |e'.closed| > |e.closed| && e'.closed[..|e.closed|] == e.closed
    ensures e'.closed[|e.closed|] == e.origin
    ensures forall i :: |e.closed| <= i < |e'.closed| ==> e'.closed[i].pos != e.destination.pos
    ensures Linked(e'.grid, e'.closed) && ParentKnown(e'.grid, e'.closed, e'.origin)
    ensures e.origin.pos != e.destination.pos
    ensures GetPath(e') == [] && e'.open == [] && e'.pathStart == MakePoint(Inexistent, Inexistent)
    ensures e.closed == [] ==> forall w :: !PathFrom(e.grid, w, e.origin.pos, e.destination.pos)
  {
    ExhaustedOutcome(e.grid, e.origin, e.destination, e.closed, closed);
    e' := e.(open := [], closed := closed, pathStart := MakePoint(Inexistent, Inexistent), path := []);
  }

  /** The grid, origin and destination of `OriginParentCycle`. */
  const CycleGrid: Grid := Grid(9, 9, 10, 10, {})
  const CycleOrigin: Node := Node(Coord(5, 5), 0, 0, 0, Coord(4, 4))
  const CycleDestination: Node := MakePoint(0, 0)

  /** Why the parent of the origin must be known: on a 10 × 10 grid with
      Manhattan estimates, an origin at (5,5) whose parent is the valid cell
      (4,4) pushes a child at (4,4) with parent (5,5) and the unique least
      `f`, so that child is the second pop. On the closed list `[origin,
      child]` the two parent lookups point at each other, so once a later
      pop reaches (4,4) the parent walk of `returnPath` never ends. */
  lemma OriginParentCycle()
    ensures !ParentKnown(CycleGrid, [], CycleOrigin)
    ensures var kids := Successors(CycleGrid, ManhattanDistance, CycleDestination, CycleOrigin, [CycleOrigin]);
            exists k :: CycleAt(CycleGrid, CycleOrigin, kids, k)
  {
    CycleStep(CycleGrid, CycleOrigin, CycleDestination,
              Successors(CycleGrid, ManhattanDistance, CycleDestination, CycleOrigin, [CycleOrigin]));
  }

  /** `kids[k]` is the only child of least `f`, on the origin's parent cell,
      and after it is closed behind `o` the two parent lookups point at each
      other. */
  ghost predicate CycleAt(g: Grid, o: Node, kids: seq<Node>, k: int)
  {
    && 0 <= k < |kids| && kids[k].pos == o.parent && IsMinF(kids, k)
    && (forall j :: 0 <= j < |kids| && j != k ==> kids[k].f < kids[j].f)
    && FindItem([o, kids[k]], o.parent) == 1
    && FindItem([o, kids[k]], kids[k].parent) == 0
    && !Linked(g, [o, kids[k]])
  }

  /** The steps of `OriginParentCycle`, from what `Successors` promises. */
  lemma CycleStep(g: Grid, o: Node, dest: Node, kids: seq<Node>)
    requires o == Node(Coord(5, 5), 0, 0, 0, Coord(4, 4)) && dest == MakePoint(0, 0)
    requires IsValid(g, o.parent)
    requires forall k :: 0 <= k < |kids| ==>
      && kids[k].parent == o.pos && KingStep(o.pos, kids[k].pos)
      && kids[k].g == o.g + Cost
      && kids[k].h == DistanceOp(ManhattanDistance, kids[k], dest)
      && kids[k].f == kids[k].g + kids[k].h
    requires forall q :: q in Positions(kids) <==>
      KingStep(o.pos, q) && IsValid(g, q) && q !in Positions([o])
    requires InDirOrder(o, kids)
    ensures !ParentKnown(g, [], o)
    ensures exists k :: CycleAt(g, o, kids, k)
  {
    assert Positions([o]) == {o.pos};
    assert KingStep(o.pos, o.parent);
    var n :| n in kids && n.pos == o.parent;
    var k :| 0 <= k < |kids| && kids[k] == n;
    CycleMin(o, dest, kids, k);
    CycleLinks(g, o, n);
    assert CycleAt(g, o, kids, k);
  }

  /** The child on (4,4) has `f` 9; every other child of (5,5) lies farther
      from (0,0), so its `f` is larger. */
  lemma CycleMin(o: Node, dest: Node, kids: seq<Node>, k: nat)
    requires o.pos == Coord(5, 5) && o.g == 0 && dest.pos == Coord(0, 0)
    requires forall k :: 0 <= k < |kids| ==>
      && KingStep(o.pos, kids[k].pos)
      && kids[k].g == o.g + Cost
      && kids[k].h == DistanceOp(ManhattanDistance, kids[k], dest)
      && kids[k].f == kids[k].g + kids[k].h
    requires InDirOrder(o, kids)
    requires k < |kids| && kids[k].pos == Coord(4, 4)
    ensures forall j :: 0 <= j < |kids| && j != k ==> kids[k].f < kids[j].f
  {
    ManhattanIsMetric(kids[k], dest);
    forall j | 0 <= j < |kids| && j != k
      ensures kids[k].f < kids[j].f
    {
      ManhattanIsMetric(kids[j], dest);
      assert DirectionOf(o.pos, kids[j].pos) != DirectionOf(o.pos, kids[k].pos);
    }
  }

  /** Closing `n` behind `o`, each on the other's parent cell, makes the
      two lookups point at each other. */
  lemma CycleLinks(g: Grid, o: Node, n: Node)
    requires o.pos != n.pos && o.parent == n.pos && n.parent == o.pos
    requires IsValid(g, o.parent)
    ensures FindItem([o, n], o.parent) == 1
    ensures FindItem([o, n], n.parent) == 0
    ensures !Linked(g, [o, n])
  {
    var closed := [o, n];
    assert FindItem(closed[1..], o.parent) == 0;
    assert closed[0].parent == o.parent;
  }

  /** `runAlgorithm()`. `open` is emptied on entry (the two `swap` calls
      both target `open`, so `closed` keeps what earlier runs left), the
      origin is pushed, and the loop pops a node of least `f`, closes it,
      stops on reaching the destination's cell, and otherwise pushes its
      children not yet closed.

      The precondition asks that every valid parent reachable from `closed`
      and from the origin be on `closed`, which holds for an empty starting
      `closed` list whenever the origin's parent is invalid (the sentinel,
      for instance). It excludes three kinds of run:
      - runs where `returnPath` dereferences the `end()` that a failed
        `find_item` returns, which is undefined;
      - runs where the parent walk of `returnPath` never ends, because two
        closed entries name each other as parents; `OriginParentCycle`
        builds one from an origin at (5,5) whose parent is (4,4);
      - failing runs from such a start, which the code finishes normally
        with `EXIT_FAILURE` since it reconstructs no path. */
  method RunAlgorithm(e: Engine) returns (code: int, e': Engine)
    requires Linked(e.grid, e.closed) && ParentKnown(e.grid, e.closed, e.origin)
    ensures code == ExitSuccess || code == ExitFailure
    ensures e'.grid == e.grid && e'.heuristic == e.heuristic
    ensures e'.origin == e.origin && e'.destination == e.destination
    // closed is never cleared: this call's pops follow the old entries
    ensures |e'.closed| > |e.closed| && e'.closed[..|e.closed|] == e.closed
    // the first pop is the origin, whatever open held before the call
    ensures e'.closed[|e.closed|] == e.origin
    ensures forall i :: |e.closed| <= i < |e'.closed| - 1 ==> e'.closed[i].pos != e.destination.pos
    ensures code == ExitSuccess <==> e'.closed[|e'.closed| - 1].pos == e.destination.pos
    ensures Linked(e'.grid, e'.closed) && ParentKnown(e'.grid, e'.closed, e'.origin)
    // a destination closed by an earlier call is found again only as the origin
    ensures code == ExitSuccess && e.destination.pos in Positions(e.closed) ==>
      e.origin.pos == e.destination.pos
    ensures code == ExitFailure ==>
      GetPath(e') == [] && e'.open == [] && e'.pathStart == MakePoint(Inexistent, Inexistent)
    ensures code == ExitSuccess ==> e'.pathStart == e'.closed[|e'.closed| - 1]
    ensures code == ExitSuccess ==> (GetPath(e') == [] <==> !IsValid(e.grid, e.destination.pos))
    ensures e.origin.pos == e.destination.pos ==> code == ExitSuccess && e'.closed == e.closed + [e.origin]
    // from an empty closed list and a valid origin: a found path is a walk from origin to destination
    ensures e.closed == [] && IsValid(e.grid, e.origin.pos) && code == ExitSuccess ==>
      && PathFrom(e.grid, GetPath(e'), e.origin.pos, e.destination.pos)
      && forall c :: c in GetPath(e') ==> IsValid(e.grid, c)
    ensures e.closed == [] && IsValid(e.grid, e.origin.pos) && e.origin.pos == e.destination.pos ==>
      GetPath(e') == [e.origin.pos]
    // from an empty closed list: failure means the destination cannot be reached
    ensures e.closed == [] && code == ExitFailure ==>
      forall w :: !PathFrom(e.grid, w, e.origin.pos, e.destination.pos)
  {
    var grid, origin, dest, c0 := e.grid, e.origin, e.destination, e.closed;
    var found, open, closed, k := Explore(e);
    if found {
      e' := FinishFound(e, open, closed, k);
      code := ExitSuccess;
    } else {
      e' := FinishExhausted(e, closed);
      code := ExitFailure;
    }
  }

  /** Two searches in a row on the same engine. `closed` is not cleared
      between them, so after a successful first search the destination's cell
      is closed and the second search fails unless it starts on that cell. */
  method SearchTwice(e: Engine) returns (first: int, second: int)
    requires Linked(e.grid, e.closed) && ParentKnown(e.grid, e.closed, e.origin)
    ensures first == ExitSuccess && e.origin.pos != e.destination.pos ==> second == ExitFailure
    ensures e.origin.pos == e.destination.pos ==> first == ExitSuccess && second == ExitSuccess
  {
    var e1, e2;
    first, e1 := RunAlgorithm(e);
    if first == ExitSuccess {
      assert e1.closed[|e1.closed| - 1] in e1.closed;
    }
    second, e2 := RunAlgorithm(e1);
  }
}
